=== FILE: README.md ===
# Expense tracker: record management and summaries, in Dafny

This project models the client-side core of a small personal expense tracker.
Users record expenses, sort them into categories, read period summaries, and
define one-tap "quick add" buttons. All state lives in the browser's local
store. The model covers:

- **Storage** (`storage.dfy`). Three collections sit under the keys
  `expenses`, `categories` and `quickAddButtons`. Each collection has
  get/add/update/delete. These are written once over a generic `Slot` and
  then instantiated for each record type. A read falls back to the slot's
  default when the key is absent, empty or unparsable. For categories the
  default is the five seed categories. A failed write is swallowed.
- **Collection scans** (`collection.dfy`). These are `findIndex`, `find`,
  replace-first and `filter` over records that carry an id.
- **Sorting** (`sorting.dfy`). This is the stable descending sort that
  `Array.prototype.sort` performs with a `b - a` comparator, plus the
  "first n" slice.
- **Dates** (`dates.dfy`). `isInPeriod` dispatches over the five periods.
  `generateId` is modelled only for its shape: length and alphabet.
- **Summary** (`summary.dfy`). The summary card filters by period, totals,
  sums per category, drops non-positive sums and sorts.
- **Forms** (`forms.dfy`). These are the submit handlers of the expense,
  quick-add and category dialogs, plus the reading of the "HH:mm" time
  field.
- **Index page** (`index_page.dfy`). This covers quick add, delete, the
  category lookup, the recent and history lists, and the edit flow.

The edit flow is modelled as written. "Edit" stores the chosen expense in
page state and opens the expense dialog. The dialog is never handed that
expense, and `updateExpense` is never called. Saving therefore appends a new
expense; it never replaces one (`IndexPage.EditAppendsNewExpense`).

Amounts are integers (cents). Timestamps are integers (milliseconds). The date
library's calendar tests, the clock, randomness, `parseFloat` and the outcome
of each storage write are all parameters.

## Model

| member | source | states |
|---|---|---|
| Storage.GetItem | src/utils/storage.ts:20-28 | An absent key, the empty string or unparsable text reads as the slot's default. |
| Storage.SetItem | src/utils/storage.ts:30-36 | A write touches only its own key. A failed write leaves the store unchanged. After a successful write, the next read returns exactly what was written. |
| Storage.Add | src/utils/storage.ts:43-47 | A successful add leaves the collection as the old one plus the record at the end. There is no duplicate-id check. Other keys are untouched. |
| Storage.Update | src/utils/storage.ts:49-56 | With no matching id, nothing is written. Otherwise only the first matching position is replaced. Length and every other position are kept, including later records with the same id. |
| Storage.Delete | src/utils/storage.ts:58-62 | A successful delete writes back the old collection with every record of that id filtered out, in the same order. No record has the id afterwards, and every other record keeps its multiplicity. With no match the collection reads as before. A failed write changes nothing. |
| Storage.DeleteIdempotent | src/utils/storage.ts:58-62 | Deleting an id twice leaves the same store as deleting it once. |
| Storage.OtherSlotUnaffected | src/utils/storage.ts:4-8 | A change confined to one key leaves every collection under a different key as it reads. |
| Storage.GetExpenses | src/utils/storage.ts:39-41 | Expenses default to the empty list. |
| Storage.GetCategories | src/utils/storage.ts:65-67 | Categories default to the five seed categories. |
| Storage.GetQuickAddButtons | src/utils/storage.ts:91-93 | Quick-add buttons default to the empty list. |
| Storage.DefaultCategoryIds | src/utils/storage.ts:11-17 | There are five seed categories, with ids '1' to '5' in order. |
| Storage.AddExpense | src/utils/storage.ts:43-47 | Appends the expense when the write succeeds. Categories and buttons read unchanged. |
| Storage.UpdateExpense | src/utils/storage.ts:49-56 | Expenses become the replace-first of the old ones. A failed write changes nothing. The other two collections are unchanged. |
| Storage.DeleteExpense | src/utils/storage.ts:58-62 | Expenses become the old ones without that id. The other two collections are unchanged. |
| Storage.AddCategory | src/utils/storage.ts:69-73 | Appends the category when the write succeeds. Expenses and buttons are unchanged. |
| Storage.UpdateCategory | src/utils/storage.ts:75-82 | Categories become the replace-first of the old ones. The other collections are unchanged. |
| Storage.DeleteCategory | src/utils/storage.ts:84-88 | Categories become the old ones without that id. The other collections are unchanged. |
| Storage.AddQuickAddButton | src/utils/storage.ts:95-99 | Appends the button when the write succeeds. The other collections are unchanged. |
| Storage.UpdateQuickAddButton | src/utils/storage.ts:101-108 | Buttons become the replace-first of the old ones. The other collections are unchanged. |
| Storage.DeleteQuickAddButton | src/utils/storage.ts:110-114 | Buttons become the old ones without that id. The other collections are unchanged. |
| Storage.AddCategoryToEmptyStore | src/utils/storage.ts:65-73 | On a store with no categories, an added category follows the five seeds. |
| Collection.FindIndex | src/utils/storage.ts:51 | Returns the first index whose id matches, or none exactly when no record has that id. |
| Collection.FindFirst | src/pages/Index.tsx:86-88 | Returns the record at the first matching index, or none exactly when nothing matches. |
| Collection.ReplaceFirst | src/utils/storage.ts:51-53 | The length is kept. The first match is overwritten and nothing else changes. With no match the collection is unchanged. |
| Collection.Filter | src/utils/storage.ts:60 | Every survivor passes the test. When every element passes, the collection is unchanged. |
| Collection.FilterCounts | src/utils/storage.ts:60 | An element that passes keeps its multiplicity. Any other element is gone. |
| Collection.FilterDistributes | src/utils/storage.ts:60 | Filtering commutes with concatenation, so survivors keep their relative order. |
| Collection.RemoveId | src/utils/storage.ts:58-62 | No record with the id remains, and every other record keeps its multiplicity. With no match the collection is returned unchanged. |
| Collection.RemoveIdIdempotent | src/utils/storage.ts:60-61 | Removing an id twice equals removing it once. |
| Sorting.Insert | src/components/ExpenseSummary.tsx:58 | Insertion keeps the order non-increasing and adds exactly the one element. |
| Sorting.SortDesc | src/components/ExpenseSummary.tsx:58 | The result is ordered non-increasingly by key and is a permutation of the input. |
| Sorting.SortDescStable | src/components/ExpenseSummary.tsx:58 | Elements with equal keys keep their input order. |
| Sorting.StableSortIsUnique | src/components/ExpenseSummary.tsx:58 | Sortedness, permutation and stability together determine the result. |
| Sorting.Take | src/pages/Index.tsx:141 | `slice(0, n)` is a prefix of length min(n, length). |
| Sorting.TakeOfSorted | src/pages/Index.tsx:138-141 | The first n of a sorted list are sorted, and no element left out has a larger key than any taken one. |
| Dates.InPeriod | src/utils/dateUtils.ts:28-45 | `all` accepts every date. Day, week, month and year are exactly the date library's is-today, this-week, this-month and this-year tests. |
| Dates.InPeriodMonotone | src/utils/dateUtils.ts:31-41 | On a calendar where a day lies within its week and month, and a month within its year, a date in a narrower period is in every period containing it. |
| Dates.Substring | src/utils/dateUtils.ts:52 | `substring(start, end)` never returns more than the string. For ordered, non-negative bounds it gives exactly the characters from `start`, up to `end` clamped to the string. |
| Dates.GenerateId | src/utils/dateUtils.ts:51-53 | An id has at most 26 characters. Each character is in [0-9a-z] when both random texts have the shape `toString(36)` gives. |
| Summary.PeriodExpenses | src/components/ExpenseSummary.tsx:30-32 | Every kept expense is in the period. Under `all` nothing is dropped. |
| Summary.PeriodExpensesExact | src/components/ExpenseSummary.tsx:30-32 | The period filter keeps each in-period expense with its multiplicity, drops every other one, and preserves order. |
| Summary.Total | src/components/ExpenseSummary.tsx:34-37 | The sum is 0 for no expenses. Otherwise it is the first amount plus the sum of the rest. It is never negative when no amount is. |
| Summary.TotalAppend | src/components/ExpenseSummary.tsx:35-38 | The total of two lists joined is the sum of their totals. |
| Summary.CategoryTotal | src/components/ExpenseSummary.tsx:41-47 | A category's amount is 0 when no expense names it, and is the whole total when every expense names it. |
| Summary.CategorySlices | src/components/ExpenseSummary.tsx:41-54 | There is one slice per category, in category order. Each copies the category's id, name and colour, and its value is the total of that category's expenses. |
| Summary.Breakdown | src/components/ExpenseSummary.tsx:41-58 | Entries are at most the number of categories, strictly positive, and non-increasing. The breakdown is exactly the positive slices, each with its multiplicity. |
| Summary.BreakdownStable | src/components/ExpenseSummary.tsx:58 | Slices with equal values stay in category order. |
| Summary.Summarize | src/components/ExpenseSummary.tsx:30-58 | The total and breakdown are taken over the period's expenses. Under `all`, the total is the sum over every expense. |
| Summary.PeriodNesting | src/components/ExpenseSummary.tsx:30-32 | On a nested calendar, a wider period keeps every expense a narrower one keeps. |
| Summary.TotalSplitsByCategory | src/components/ExpenseSummary.tsx:35-55 | With distinct category ids, the total equals the sum of all category totals plus the amounts of expenses that name no category. |
| Summary.OrphanOnlyInTotal | src/components/ExpenseSummary.tsx:35-55 | An expense naming no category raises the total but leaves every slice unchanged. |
| Summary.ThreeCategoryExample | src/components/ExpenseSummary.tsx:30-58 | Over all time, amounts x >= y > 0 in categories A and B and 0 in C give total x + y and breakdown [A x, B y], with C dropped. |
| Forms.Split | src/components/ExpenseForm.tsx:50 | `split` returns at least one piece, and no piece contains the separator. |
| Forms.JoinSplit | src/components/ExpenseForm.tsx:50 | Joining the pieces of a split gives back the text. |
| Forms.SplitJoin | src/components/ExpenseForm.tsx:50 | Splitting the join of separator-free pieces gives back the pieces. |
| Forms.NumberOrZero | src/components/ExpenseForm.tsx:50-53 | A missing or non-numeric piece counts as 0, and the result is never negative. |
| Forms.ParseTime | src/components/ExpenseForm.tsx:50-53 | Hours and minutes are non-negative. With no ':', minutes default to 0. |
| Forms.ParseFormattedTime | src/components/ExpenseForm.tsx:34 | Every "HH:mm" text the time input can hold reads back as that hour and minute. |
| Forms.ExpenseTimestamp | src/components/ExpenseForm.tsx:51-56 | The stamp is a whole number of minutes after the picked day's start, so seconds and milliseconds are 0. |
| Forms.StampOfShownTime | src/components/ExpenseForm.tsx:51-56 | A shown time stamps the expense at that hour and minute, within the picked day. |
| Forms.SubmitExpense | src/components/ExpenseForm.tsx:37-72 | An empty amount or category rejects the form with the store unchanged. Otherwise the form reports success with the expense built from the id, parsed amount, category, description and stamp, and that expense is appended when the write succeeds. A failed write leaves the collection as it was, and the form still reports success. An amount of "0" passes. |
| Forms.SubmitQuickAdd | src/components/QuickAddForm.tsx:27-49 | An empty name, amount or category rejects the form with the store unchanged. Otherwise the form reports success with a button of that name, parsed amount and category, which is appended when the write succeeds. A failed write leaves the collection as it was, and the form still reports success. |
| Forms.ApplyEdit | src/components/CategoryForm.tsx:92-101 | Clicking a swatch selects an offered colour. Typing the name keeps the colour. |
| Forms.ApplyEdits | src/components/CategoryForm.tsx:18-33 | Starting from an offered colour, any run of edits leaves an offered colour. |
| Forms.SubmitCategory | src/components/CategoryForm.tsx:36-61 | An empty name rejects the form with the store unchanged. Otherwise the form reports success with a category of that name, the selected colour and icon 'default', which is appended when the write succeeds. A failed write leaves the collection as it was, and the form still reports success. |
| Forms.FreshStoreColorsOffered | src/components/CategoryForm.tsx:18-29 | Every seed category's colour is one of the offered swatches. |
| Forms.SubmitCategoryKeepsColorsOffered | src/components/CategoryForm.tsx:33-55 | A category saved from the dialog keeps every stored colour among the offered swatches. |
| Forms.FirstCategoryFollowsSeeds | src/components/CategoryForm.tsx:55 | On empty storage, the new category lands after the five seeds. |
| IndexPage.LoadData | src/pages/Index.tsx:45-49 | The shown collections are exactly what the store reads as. |
| IndexPage.Mount | src/pages/Index.tsx:28-42 | After mounting, the page shows exactly what the store reads as, which includes the seed categories on a fresh store. The period is "month", no dialog is open and no expense is remembered. |
| IndexPage.QuickAddExpense | src/pages/Index.tsx:53-59 | The new expense copies the button's amount and category, and uses the button's name as its description. |
| IndexPage.HandleQuickAdd | src/pages/Index.tsx:52-67 | The store becomes the store's add of the templated expense, and the view is reloaded from it. When the write succeeds, exactly one expense is stored and shown after the old ones. A failed write leaves the expenses as they were. Categories, buttons, the period, the remembered expense and the dialog flags are unchanged. |
| IndexPage.HandleDeleteExpense | src/pages/Index.tsx:70-77 | The store becomes the store's delete with the item's id, and the page reloads from it. After a successful delete, the shown expenses are the old ones with that id filtered out, in their stored order. No shown expense has the id, and every other expense keeps its multiplicity. A failed write leaves the shown expenses as they were. Categories and buttons are reloaded unchanged. |
| IndexPage.HandleEditExpense | src/pages/Index.tsx:80-83 | Edit only remembers the expense and opens the expense dialog. The store, the shown data and the other dialogs are untouched. |
| IndexPage.HandleFormClose | src/pages/Index.tsx:91-97 | The expense, quick-add and category dialogs all close, the remembered expense is forgotten, and the data is reloaded from the store. The period is kept. |
| IndexPage.SaveExpenseDialog | src/pages/Index.tsx:232-240 | The dialog ignores the remembered expense. A valid save closes all three dialogs, forgets the remembered expense and reloads the view from the store. It appends a new expense when the write succeeds, leaves the expenses as they were when it fails, and keeps the categories, the buttons and the period. An invalid save leaves the page as it was. |
| IndexPage.EditAppendsNewExpense | src/pages/Index.tsx:232-238 | After Edit and a valid save, every stored expense stays in place and one new expense follows. |
| IndexPage.CategoryById | src/pages/Index.tsx:86-88 | Returns the first category with the id, or none exactly when no category has it. |
| IndexPage.History | src/pages/Index.tsx:173-175 | The history lists every expense exactly once, sorted newest first. |
| IndexPage.HistoryStable | src/pages/Index.tsx:173-175 | Expenses with the same date keep their stored order. |
| IndexPage.HistoryIsTheStableSort | src/pages/Index.tsx:173-175 | Any newest-first, stable arrangement of the expenses is the history. |
| IndexPage.Recent | src/pages/Index.tsx:138-141 | The recent list is the first min(3, n) entries of the history, so expenses with equal dates appear in stored order. It is sorted newest first, and no expense left out is newer than any shown. |

## Left out

- JSON text. `JSON.stringify` and `JSON.parse` are assumed to round-trip, so a stored collection is held as the records it decodes to.
- Wrong-typed slot contents. Text that parses to something other than this key's collection (`null`, a number, another record type) reads as the default. The application would instead return that value unchecked.
- Aliasing of the seed list. Whenever the category slot reads as its default (key absent, empty text or unparsable text), `getCategories` returns the exported `defaultCategories` array itself. A later `addCategory` or `updateCategory` then pushes into it or assigns into it. After such a call in the same session, later default reads no longer give the five seeds, even when the write itself failed. A value model cannot show that mutation. So Storage.GetCategories, Storage.DefaultCategoryIds, Storage.AddCategoryToEmptyStore, Forms.FirstCategoryFollowsSeeds, IndexPage.Mount, and the failed-write clauses of Storage.AddCategory and Storage.UpdateCategory hold only until the first such call, even a failed one.
- Logging. The `console.error` calls are dropped.
- Concurrent writers in other tabs. The accepted last-write-wins race is left out.
- The date library. Its calendar tests are parameters, and its week start, time zone and daylight-saving handling are its own concern. ISO-8601 parsing and formatting and the display helpers `formatCurrency`, `formatDate`, `formatTime`, `formatDateTime` and `getCurrentDateTimeISO` are left out.
- Summary.PeriodExpenses: classifies every expense against one `now` per summary. The date library reads the clock inside each calendar test, and the summary makes one test per expense. So a render that crosses a day, week, month or year boundary can classify different expenses against different moments. Summary.PeriodExpensesExact, Summary.PeriodNesting and Summary.Summarize inherit the single moment.
- The `default: return false` branch of `isInPeriod`. It cannot be reached with the five-valued period type.
- Floating point. Amounts are integer cents, `parseFloat` is a parameter, and IEEE rounding in the sums is left out.
- Dates.GenerateId: only the shape of an id is modelled. The uniqueness and collision behaviour of `Math.random` is not.
- Forms.NumberOrZero: models `Number` only on digit strings. Signs, decimals, exponents, hex and surrounding spaces, which `Number` also accepts, read as 0 here. A time input never produces them.
- Forms.ExpenseTimestamp: adds hours and minutes to the picked day's local midnight in milliseconds. It does not model daylight-saving shifts inside that day.
- Rendering. React, dialogs, toasts, the chart, `ExpenseItem.tsx`, `QuickAddButton.tsx` and the packaging configuration are left out.

=== FILE: collection.dfy ===
/**
 * Operations on an ordered collection of records that carry a string id,
 * written once over any record type and an id accessor: the linear
 * `findIndex`, `find`, replace-first and `filter` scans the storage layer
 * and the pages use.
 */
module Collection {
  import opened Records

  /** `i` is the first position of `s` holding a record with id `id`. */
  predicate IsFirstMatch<T>(s: seq<T>, idOf: T -> string, id: string, i: int)
  {
    && 0 <= i < |s|
    && idOf(s[i]) == id
    && forall j :: 0 <= j < i ==> idOf(s[j]) != id
  }

  /** Some record of `s` has id `id`. */
  predicate HasId<T>(s: seq<T>, idOf: T -> string, id: string)
  {
    exists i :: 0 <= i < |s| && idOf(s[i]) == id
  }

  /** Array.prototype.findIndex with an id-equality callback; None stands for -1. */
  function FindIndex<T>(s: seq<T>, idOf: T -> string, id: string): (r: Option<nat>)
    ensures r.Some? ==> IsFirstMatch(s, idOf, id, r.value)
    ensures r.None? <==> !HasId(s, idOf, id)
  {
    if |s| == 0 then None
    else if idOf(s[0]) == id then Some(0)
    else
      match FindIndex(s[1..], idOf, id)
      case None =>
        assert forall j :: 1 <= j < |s| ==> s[j] == s[1..][j - 1];
        None
      case Some(i) =>
        assert forall j :: 1 <= j < i + 1 ==> s[j] == s[1..][j - 1];
        Some(i + 1)
  }

  /** Array.prototype.find with an id-equality callback. */
  function FindFirst<T>(s: seq<T>, idOf: T -> string, id: string): (r: Option<T>)
    ensures r.None? <==> !HasId(s, idOf, id)
    ensures r.Some? ==> exists i :: IsFirstMatch(s, idOf, id, i) && r.value == s[i]
  {
    match FindIndex(s, idOf, id)
    case None => None
    case Some(i) => Some(s[i])
  }

  /**
   * Overwrites the first record whose id equals `x`'s id with `x`; with no
   * such record the collection is returned as it was.
   */
  function ReplaceFirst<T>(s: seq<T>, idOf: T -> string, x: T): (r: seq<T>)
    ensures |r| == |s|
    ensures !HasId(s, idOf, idOf(x)) ==> r == s
    ensures forall i | IsFirstMatch(s, idOf, idOf(x), i) :: r == s[i := x]
  {
    match FindIndex(s, idOf, idOf(x))
    case None => s
    case Some(i) =>
      assert forall k | IsFirstMatch(s, idOf, idOf(x), k) :: k == i;
      s[i := x]
  }

  /** Array.prototype.filter: the elements satisfying `keep`, in their original order. */
  function Filter<T>(s: seq<T>, keep: T -> bool): (r: seq<T>)
    ensures |r| <= |s|
    ensures forall i :: 0 <= i < |r| ==> keep(r[i])
    ensures (forall i :: 0 <= i < |s| ==> keep(s[i])) ==> r == s
  {
    if |s| == 0 then []
    else
      var rest := Filter(s[1..], keep);
      var head := if keep(s[0]) then [s[0]] else [];
      assert s == [s[0]] + s[1..];
      assert forall i :: 0 <= i < |head + rest| ==> keep((head + rest)[i]) by {
        forall i | 0 <= i < |head + rest| ensures keep((head + rest)[i]) {
          if i >= |head| {
            assert (head + rest)[i] == rest[i - |head|];
          }
        }
      }
      head + rest
  }

  /** Filtering keeps each element satisfying `keep` as often as it occurs, and no other. */
  lemma {:induction false} FilterCounts<T>(s: seq<T>, keep: T -> bool, x: T)
    ensures multiset(Filter(s, keep))[x] == if keep(x) then multiset(s)[x] else 0
    decreases |s|
  {
    if |s| > 0 {
      FilterCounts(s[1..], keep, x);
      assert s == [s[0]] + s[1..];
      var head := if keep(s[0]) then [s[0]] else [];
      assert Filter(s, keep) == head + Filter(s[1..], keep);
    }
  }

  /** Filtering commutes with concatenation: survivors keep their relative order. */
  lemma {:induction false} FilterDistributes<T>(a: seq<T>, b: seq<T>, keep: T -> bool)
    ensures Filter(a + b, keep) == Filter(a, keep) + Filter(b, keep)
    decreases |a|
  {
    if |a| == 0 {
      assert a + b == b;
    } else {
      assert (a + b)[0] == a[0];
      assert (a + b)[1..] == a[1..] + b;
      FilterDistributes(a[1..], b, keep);
      var head := if keep(a[0]) then [a[0]] else [];
      assert Filter(a + b, keep) == head + Filter(a[1..] + b, keep);
      assert Filter(a, keep) == head + Filter(a[1..], keep);
    }
  }

  /** Filtering a sequence with one more element in front. */
  lemma FilterFront<T>(e: T, rest: seq<T>, keep: T -> bool)
    ensures Filter([e] + rest, keep) == (if keep(e) then [e] else []) + Filter(rest, keep)
  {
    assert ([e] + rest)[1..] == rest;
  }

  /** Filtering never adds an element or raises its multiplicity. */
  lemma {:induction false} FilterShrinks<T>(s: seq<T>, keep: T -> bool)
    ensures multiset(Filter(s, keep)) <= multiset(s)
  {
    if |s| > 0 {
      FilterShrinks(s[1..], keep);
      assert s == [s[0]] + s[1..];
      var head := if keep(s[0]) then [s[0]] else [];
      assert multiset(head + Filter(s[1..], keep)) == multiset(head) + multiset(Filter(s[1..], keep));
    }
  }

  /** The test `filter(r => r.id !== id)` applies. */
  function OtherId<T>(idOf: T -> string, id: string): T -> bool
  {
    x => idOf(x) != id
  }

  /** The collection without the records whose id is `id`. */
  function RemoveId<T>(s: seq<T>, idOf: T -> string, id: string): (r: seq<T>)
    ensures |r| <= |s|
    ensures !HasId(r, idOf, id)
    ensures !HasId(s, idOf, id) ==> r == s
    ensures multiset(r) <= multiset(s)
    ensures forall x :: x in multiset(s) ==> multiset(r)[x] == if idOf(x) == id then 0 else multiset(s)[x]
  {
    var r := Filter(s, OtherId(idOf, id));
    assert forall i :: 0 <= i < |r| ==> OtherId(idOf, id)(r[i]);
    forall x ensures multiset(r)[x] == if idOf(x) == id then 0 else multiset(s)[x] {
      FilterCounts(s, OtherId(idOf, id), x);
    }
    FilterShrinks(s, OtherId(idOf, id));
    r
  }

  /** Removing the same id twice is the same as removing it once. */
  lemma RemoveIdIdempotent<T>(s: seq<T>, idOf: T -> string, id: string)
    ensures RemoveId(RemoveId(s, idOf, id), idOf, id) == RemoveId(s, idOf, id)
  {
  }
}

=== FILE: dates.dfy ===
/**
 * src/utils/dateUtils.ts: the period test used by the summary, and the
 * shape of generated ids.
 *
 * The calendar tests (is this timestamp in the same day, week, month or
 * year as `now`) belong to a date library whose week start and time zone
 * are its own business; they are parameters here. Randomness is a
 * parameter too: an id is built from the two texts that
 * `Math.random().toString(36)` produced.
 */
module Dates {
  import opened Records

  /** The date library's calendar predicates, each of (timestamp, now). */
  datatype Calendar = Calendar(
    isToday: (Timestamp, Timestamp) -> bool,
    isThisWeek: (Timestamp, Timestamp) -> bool,
    isThisMonth: (Timestamp, Timestamp) -> bool,
    isThisYear: (Timestamp, Timestamp) -> bool)

  /** `isInPeriod`: dispatch on the period; `all` accepts every timestamp. */
  function InPeriod(date: Timestamp, period: Period, cal: Calendar, now: Timestamp): (r: bool)
    ensures period == All ==> r
    ensures period == Day ==> (r <==> cal.isToday(date, now))
    ensures period == Week ==> (r <==> cal.isThisWeek(date, now))
    ensures period == Month ==> (r <==> cal.isThisMonth(date, now))
    ensures period == Year ==> (r <==> cal.isThisYear(date, now))
  {
    match period
    case Day => cal.isToday(date, now)
    case Week => cal.isThisWeek(date, now)
    case Month => cal.isThisMonth(date, now)
    case Year => cal.isThisYear(date, now)
    case All => true
  }

  /**
   * The nesting every real calendar has: the same day is the same week and
   * the same month, and the same month is the same year.
   */
  ghost predicate Nested(cal: Calendar)
  {
    && (forall d, n :: cal.isToday(d, n) ==> cal.isThisWeek(d, n) && cal.isThisMonth(d, n))
    && (forall d, n :: cal.isThisMonth(d, n) ==> cal.isThisYear(d, n))
  }

  /** `finer` is a window contained in `coarser` on a nested calendar. */
  predicate Within(finer: Period, coarser: Period)
  {
    || finer == coarser
    || coarser == All
    || (finer == Day && coarser in {Week, Month, Year})
    || (finer == Month && coarser == Year)
  }

  /** On a nested calendar a timestamp in a period is in every period containing it. */
  lemma InPeriodMonotone(date: Timestamp, finer: Period, coarser: Period, cal: Calendar, now: Timestamp)
    requires Nested(cal)
    requires Within(finer, coarser)
    requires InPeriod(date, finer, cal, now)
    ensures InPeriod(date, coarser, cal, now)
  {
  }

  // Identifier generation.

  predicate IsBase36Digit(c: char)
  {
    ('0' <= c <= '9') || ('a' <= c <= 'z')
  }

  /**
   * The text `Number.prototype.toString(36)` gives for a number in [0, 1):
   * "0", or "0." followed by base-36 digits.
   */
  predicate IsBase36Fraction(t: string)
  {
    || t == "0"
    || (|t| >= 2 && t[0] == '0' && t[1] == '.' && forall k :: 2 <= k < |t| ==> IsBase36Digit(t[k]))
  }

  function Clamp(n: int, len: nat): (r: nat)
    ensures r <= len
  {
    if n < 0 then 0 else if n > len then len else n
  }

  /**
   * `String.prototype.substring(start, end)`: both bounds are clamped to
   * the string, and swapped when they come out reversed.
   */
  function Substring(s: string, start: int, end: int): (r: string)
    ensures |r| <= |s|
    ensures 0 <= start <= end ==> |r| == Clamp(end, |s|) - Clamp(start, |s|)
    ensures 0 <= start <= end ==> forall k :: 0 <= k < |r| ==> start + k < |s| && r[k] == s[start + k]
  {
    var a := Clamp(start, |s|);
    var b := Clamp(end, |s|);
    if a <= b then s[a..b] else s[b..a]
  }

  /** `generateId`: two random base-36 texts, each cut to the 13 characters after "0.". */
  function GenerateId(random1: string, random2: string): (id: string)
    ensures |id| <= 26
    ensures IsBase36Fraction(random1) && IsBase36Fraction(random2) ==>
              forall k :: 0 <= k < |id| ==> IsBase36Digit(id[k])
  {
    var first := Substring(random1, 2, 15);
    var second := Substring(random2, 2, 15);
    assert forall k :: 0 <= k < |second| ==> (first + second)[|first| + k] == second[k];
    first + second
  }
}

=== FILE: forms.dfy ===
/**
 * The submit handlers of the three dialogs (src/components/ExpenseForm.tsx,
 * QuickAddForm.tsx and CategoryForm.tsx), and the reading of the time
 * field of the expense dialog.
 *
 * A handler either rejects the form, touching nothing, or builds one record
 * from the fields, adds it through the storage layer and then reports
 * success to the page. The new record's id (from `generateId`), the write
 * outcome and the number parser (`parseFloat`) are parameters.
 */
module Forms {
  import opened Records
  import Storage

  /** What a submit did, as the page sees it: `onSuccess` runs exactly for `Saved`. */
  datatype Submitted<T> = Rejected | Saved(record: T)

  datatype Outcome<T> = Outcome(store: Storage.Backing, result: Submitted<T>)

  // The time field.

  /** `String.prototype.split` on a one-character separator. */
  function Split(s: string, sep: char): (r: seq<string>)
    ensures |r| >= 1
    ensures forall i :: 0 <= i < |r| ==> sep !in r[i]
    decreases |s|
  {
    if |s| == 0 then [""]
    else
      var rest := Split(s[1..], sep);
      if s[0] == sep then [""] + rest
      else
        var r := [[s[0]] + rest[0]] + rest[1..];
        assert forall i :: 1 <= i < |r| ==> r[i] == rest[i];
        r
  }

  /** `Array.prototype.join` with a one-character separator. */
  function Join(parts: seq<string>, sep: char): string
  {
    if |parts| == 0 then ""
    else if |parts| == 1 then parts[0]
    else parts[0] + [sep] + Join(parts[1..], sep)
  }

  /** Splitting loses nothing: joining the pieces back gives the text. */
  lemma {:induction false} JoinSplit(s: string, sep: char)
    ensures Join(Split(s, sep), sep) == s
    decreases |s|
  {
    if |s| > 0 {
      JoinSplit(s[1..], sep);
      var rest := Split(s[1..], sep);
      if s[0] == sep {
        assert ([""] + rest)[1..] == rest;
      } else {
        var r := [[s[0]] + rest[0]] + rest[1..];
        if |rest| > 1 {
          assert r[1..] == rest[1..];
        }
      }
    }
  }

  /** Pieces free of the separator are recovered by splitting their join. */
  lemma {:induction false} SplitJoin(parts: seq<string>, sep: char)
    requires |parts| >= 1
    requires forall i :: 0 <= i < |parts| ==> sep !in parts[i]
    ensures Split(Join(parts, sep), sep) == parts
    decreases |parts|, |parts[0]|
  {
    if |parts| == 1 {
      SplitPlain(parts[0], sep);
    } else if |parts[0]| == 0 {
      SplitJoin(parts[1..], sep);
      assert Join(parts, sep) == [sep] + Join(parts[1..], sep);
      assert ([sep] + Join(parts[1..], sep))[1..] == Join(parts[1..], sep);
      assert parts == [""] + parts[1..];
    } else {
      var shorter := [parts[0][1..]] + parts[1..];
      assert shorter[1..] == parts[1..];
      SplitJoin(shorter, sep);
      assert Join(parts, sep) == [parts[0][0]] + Join(shorter, sep);
      assert Join(parts, sep)[1..] == Join(shorter, sep);
      assert parts[0] == [parts[0][0]] + parts[0][1..];
      assert parts == [[parts[0][0]] + shorter[0]] + shorter[1..];
    }
  }

  lemma {:induction false} SplitPlain(s: string, sep: char)
    requires sep !in s
    ensures Split(s, sep) == [s]
    decreases |s|
  {
    if |s| > 0 {
      SplitPlain(s[1..], sep);
      assert s == [s[0]] + s[1..];
    }
  }

  predicate IsDigit(c: char) { '0' <= c <= '9' }

  predicate AllDigits(s: string)
  {
    forall i :: 0 <= i < |s| ==> IsDigit(s[i])
  }

  /** The decimal value of a digit string. */
  function DigitsValue(s: string): (r: nat)
    requires AllDigits(s)
  {
    if |s| == 0 then 0
    else 10 * DigitsValue(s[..|s| - 1]) + (s[|s| - 1] as int - '0' as int)
  }

  /**
   * `Number(text) || 0` for one piece of the time field: the decimal value
   * of a digit string, and 0 for the empty piece and for any other text
   * (which Number turns into NaN).
   */
  function NumberOrZero(text: string): (r: int)
    ensures r >= 0
    ensures !AllDigits(text) ==> r == 0
  {
    if AllDigits(text) then DigitsValue(text) else 0
  }

  datatype ClockTime = ClockTime(hours: int, minutes: int)

  /**
   * The time field read as hours and minutes: the text is split at each
   * colon, the first two pieces are read as numbers, and a piece that is
   * missing or not a number counts as 0.
   */
  function ParseTime(time: string): (r: ClockTime)
    ensures r.hours >= 0 && r.minutes >= 0
    ensures ':' !in time ==> r.minutes == 0
  {
    var parts := Split(time, ':');
    var r := ClockTime(NumberOrZero(parts[0]), if |parts| >= 2 then NumberOrZero(parts[1]) else 0);
    if ':' in time then r else (SplitPlain(time, ':'); r)
  }

  function DigitChar(d: int): char
    requires 0 <= d < 10
  {
    ('0' as int + d) as char
  }

  /** Two-digit zero-padded decimal. */
  function TwoDigits(n: int): (r: string)
    requires 0 <= n < 100
    ensures |r| == 2 && AllDigits(r) && ':' !in r
  {
    [DigitChar(n / 10), DigitChar(n % 10)]
  }

  /** The "HH:mm" text the time input holds. */
  function FormatTime(t: ClockTime): string
    requires 0 <= t.hours < 24 && 0 <= t.minutes < 60
  {
    TwoDigits(t.hours) + ":" + TwoDigits(t.minutes)
  }

  /** Every time the input can show is read back as that time. */
  lemma ParseFormattedTime(t: ClockTime)
    requires 0 <= t.hours < 24 && 0 <= t.minutes < 60
    ensures ParseTime(FormatTime(t)) == t
  {
    var hh, mm := TwoDigits(t.hours), TwoDigits(t.minutes);
    assert FormatTime(t) == Join([hh, mm], ':');
    SplitJoin([hh, mm], ':');
    TwoDigitsValue(t.hours);
    TwoDigitsValue(t.minutes);
  }

  lemma TwoDigitsValue(n: int)
    requires 0 <= n < 100
    ensures DigitsValue(TwoDigits(n)) == n
  {
    var s := TwoDigits(n);
    assert s[..1] == [DigitChar(n / 10)];
    assert s[..1][..0] == [];
    assert DigitsValue(s[..1]) == n / 10;
  }

  const MillisPerMinute: int := 60_000
  const MillisPerHour: int := 3_600_000
  const MillisPerDay: int := 86_400_000

  /**
   * `set(date, {hours, minutes, seconds: 0, milliseconds: 0})` on the
   * picked day, `dayStart` being that day's local midnight.
   */
  function ExpenseTimestamp(dayStart: Timestamp, time: string): (r: Timestamp)
    ensures (r - dayStart) % MillisPerMinute == 0
    ensures r >= dayStart
  {
    var t := ParseTime(time);
    dayStart + t.hours * MillisPerHour + t.minutes * MillisPerMinute
  }

  /** A time the input can show stamps the expense at that minute of the picked day. */
  lemma StampOfShownTime(dayStart: Timestamp, t: ClockTime)
    requires 0 <= t.hours < 24 && 0 <= t.minutes < 60
    ensures ExpenseTimestamp(dayStart, FormatTime(t))
         == dayStart + t.hours * MillisPerHour + t.minutes * MillisPerMinute
    ensures dayStart <= ExpenseTimestamp(dayStart, FormatTime(t)) < dayStart + MillisPerDay
  {
    ParseFormattedTime(t);
  }

  // The expense dialog.

  datatype ExpenseFields = ExpenseFields(
    amount: string,
    categoryId: string,
    description: string,
    dayStart: Timestamp,
    time: string)

  /**
   * `handleSubmit` of the expense dialog. Only emptiness is checked, so an
   * amount of "0" passes; the description may be empty.
   */
  function SubmitExpense(b: Storage.Backing, f: ExpenseFields, id: string, parseAmount: string -> Amount, ok: bool)
    : (r: Outcome<Expense>)
    ensures r.result.Rejected? <==> f.amount == "" || f.categoryId == ""
    ensures r.result.Rejected? ==> r.store == b
    ensures r.result.Saved? ==>
              && r.result.record.id == id
              && r.result.record.amount == parseAmount(f.amount)
              && r.result.record.categoryId == f.categoryId
              && r.result.record.description == f.description
              && r.result.record.date == ExpenseTimestamp(f.dayStart, f.time)
    ensures r.result.Saved? ==>
              Storage.GetExpenses(r.store)
                == Storage.GetExpenses(b) + (if ok then [r.result.record] else [])
    ensures Storage.GetCategories(r.store) == Storage.GetCategories(b)
    ensures Storage.GetQuickAddButtons(r.store) == Storage.GetQuickAddButtons(b)
  {
    if f.amount == "" || f.categoryId == "" then Outcome(b, Rejected)
    else
      var e := Expense(id, parseAmount(f.amount), f.categoryId, f.description,
                       ExpenseTimestamp(f.dayStart, f.time));
      Outcome(Storage.AddExpense(b, e, ok), Saved(e))
  }

  // The quick-add dialog.

  datatype QuickAddFields = QuickAddFields(name: string, amount: string, categoryId: string)

  /** `handleSubmit` of the quick-add dialog; no check that the amount is positive. */
  function SubmitQuickAdd(b: Storage.Backing, f: QuickAddFields, id: string, parseAmount: string -> Amount, ok: bool)
    : (r: Outcome<QuickAddButton>)
    ensures r.result.Rejected? <==> f.name == "" || f.amount == "" || f.categoryId == ""
    ensures r.result.Rejected? ==> r.store == b
    ensures r.result.Saved? ==>
              r.result.record == QuickAddButton(id, f.name, parseAmount(f.amount), f.categoryId)
    ensures r.result.Saved? ==>
              Storage.GetQuickAddButtons(r.store)
                == Storage.GetQuickAddButtons(b) + (if ok then [r.result.record] else [])
    ensures Storage.GetExpenses(r.store) == Storage.GetExpenses(b)
    ensures Storage.GetCategories(r.store) == Storage.GetCategories(b)
  {
    if f.name == "" || f.amount == "" || f.categoryId == "" then Outcome(b, Rejected)
    else
      var q := QuickAddButton(id, f.name, parseAmount(f.amount), f.categoryId);
      Outcome(Storage.AddQuickAddButton(b, q, ok), Saved(q))
  }

  // The category dialog.

  /** The swatches the category dialog offers, in display order. */
  const ColorOptions: seq<string> := [
    "#00dac0", "#407BFF", "#FF7043", "#FF4081", "#6C63FF",
    "#AA00FF", "#00B8D4", "#00C853", "#FFD600", "#FF6D00"
  ]

  datatype CategoryFields = CategoryFields(name: string, color: string)

  /** The dialog opens with an empty name and the first swatch selected. */
  const InitialCategoryFields: CategoryFields := CategoryFields("", ColorOptions[0])

  /** What the user can do to the dialog: type a name or click a swatch. */
  datatype CategoryEdit = TypeName(text: string) | ClickSwatch(swatch: nat)

  /** Only the rendered swatches can be clicked. */
  predicate Offered(e: CategoryEdit)
  {
    e.ClickSwatch? ==> e.swatch < |ColorOptions|
  }

  function ApplyEdit(f: CategoryFields, e: CategoryEdit): (r: CategoryFields)
    requires Offered(e)
    ensures f.color in ColorOptions ==> r.color in ColorOptions
    ensures e.TypeName? ==> r.color == f.color
  {
    match e
    case TypeName(text) => f.(name := text)
    case ClickSwatch(i) => f.(color := ColorOptions[i])
  }

  /** The dialog's fields after a run of edits. */
  function ApplyEdits(f: CategoryFields, es: seq<CategoryEdit>): (r: CategoryFields)
    requires forall i :: 0 <= i < |es| ==> Offered(es[i])
    ensures f.color in ColorOptions ==> r.color in ColorOptions
    decreases |es|
  {
    if |es| == 0 then f else ApplyEdits(ApplyEdit(f, es[0]), es[1..])
  }

  /** `handleSubmit` of the category dialog: only the name is required. */
  function SubmitCategory(b: Storage.Backing, f: CategoryFields, id: string, ok: bool): (r: Outcome<Category>)
    ensures r.result.Rejected? <==> f.name == ""
    ensures r.result.Rejected? ==> r.store == b
    ensures r.result.Saved? ==> r.result.record == Category(id, f.name, f.color, "default")
    ensures r.result.Saved? ==>
              Storage.GetCategories(r.store)
                == Storage.GetCategories(b) + (if ok then [r.result.record] else [])
    ensures Storage.GetExpenses(r.store) == Storage.GetExpenses(b)
    ensures Storage.GetQuickAddButtons(r.store) == Storage.GetQuickAddButtons(b)
  {
    if f.name == "" then Outcome(b, Rejected)
    else
      var c := Category(id, f.name, f.color, "default");
      Outcome(Storage.AddCategory(b, c, ok), Saved(c))
  }

  /** Every category in the list has a colour the dialog offers. */
  predicate AllOffered(cats: seq<Category>)
  {
    forall i :: 0 <= i < |cats| ==> cats[i].color in ColorOptions
  }

  /** Every category of the store has a colour the dialog offers. */
  predicate ColorsOffered(b: Storage.Backing)
  {
    AllOffered(Storage.GetCategories(b))
  }

  /** The seed categories use the first five swatches, so a fresh store satisfies the invariant. */
  lemma FreshStoreColorsOffered(b: Storage.Backing)
    requires Storage.CategoriesKey !in b
    ensures ColorsOffered(b)
  {
    assert Storage.GetCategories(b) == Storage.DefaultCategories;
    forall i | 0 <= i < 5 ensures Storage.DefaultCategories[i].color == ColorOptions[i] { }
  }

  lemma AppendOffered(cats: seq<Category>, c: Category)
    requires AllOffered(cats)
    requires c.color in ColorOptions
    ensures AllOffered(cats + [c])
  {
    var all := cats + [c];
    forall i | 0 <= i < |all| ensures all[i].color in ColorOptions {
      if i < |cats| {
        assert all[i] == cats[i];
      }
    }
  }

  /** Saving fields whose colour is offered keeps every stored colour offered. */
  lemma SubmitKeepsColorsOffered(b: Storage.Backing, f: CategoryFields, id: string, ok: bool)
    requires ColorsOffered(b)
    requires f.color in ColorOptions
    ensures ColorsOffered(SubmitCategory(b, f, id, ok).store)
  {
    if f.name != "" && ok {
      AppendOffered(Storage.GetCategories(b), Category(id, f.name, f.color, "default"));
    }
  }

  /**
   * Submitting the dialog after any run of edits keeps every stored
   * category's colour among the offered swatches.
   */
  lemma SubmitCategoryKeepsColorsOffered(b: Storage.Backing, es: seq<CategoryEdit>, id: string, ok: bool)
    requires ColorsOffered(b)
    requires forall i :: 0 <= i < |es| ==> Offered(es[i])
    ensures ColorsOffered(SubmitCategory(b, ApplyEdits(InitialCategoryFields, es), id, ok).store)
  {
    assert InitialCategoryFields.color == ColorOptions[0];
    SubmitKeepsColorsOffered(b, ApplyEdits(InitialCategoryFields, es), id, ok);
  }

  /** On a store that never held categories, the first new category follows the five seeds. */
  lemma FirstCategoryFollowsSeeds(b: Storage.Backing, f: CategoryFields, id: string)
    requires Storage.CategoriesKey !in b
    requires f.name != ""
    ensures Storage.GetCategories(SubmitCategory(b, f, id, true).store)
         == Storage.DefaultCategories + [Category(id, f.name, f.color, "default")]
  {
  }
}

=== FILE: index_page.dfy ===
/**
 * The page of src/pages/Index.tsx: the collections it shows (reloaded from
 * the store after every change), the quick-add and delete actions, the
 * category lookup, the "recent" and "history" lists, and the edit flow.
 *
 * The edit flow is modelled as the page wires it: "Edit" remembers the
 * expense and opens the expense dialog, but the dialog is never handed the
 * remembered expense and the page never calls `updateExpense`, so saving
 * the dialog adds a new expense.
 */
module IndexPage {
  import opened Records
  import Collection
  import Sorting
  import Storage
  import Forms

  datatype Page = Page(
    store: Storage.Backing,
    view: Storage.Snapshot,
    period: Period,
    showExpenseForm: bool,
    showQuickAddForm: bool,
    showCategoryForm: bool,
    editing: Option<Expense>)

  /** `loadData`: the shown collections are re-read from the store. */
  function LoadData(pg: Page): (r: Page)
    ensures r.view == Storage.Read(pg.store)
    ensures r.store == pg.store
  {
    pg.(view := Storage.Read(pg.store))
  }

  /** The page after mounting: everything loaded, period "month", no dialog open. */
  function Mount(b: Storage.Backing): (r: Page)
    ensures r.store == b && r.view == Storage.Read(b)
    ensures Storage.CategoriesKey !in b ==> r.view.categories == Storage.DefaultCategories
    ensures r.period == Month && r.editing.None?
    ensures !r.showExpenseForm && !r.showQuickAddForm && !r.showCategoryForm
  {
    LoadData(Page(b, Storage.Snapshot([], [], []), Month, false, false, false, None))
  }

  /** The expense a quick-add button creates at time `now`. */
  function QuickAddExpense(button: QuickAddButton, id: string, now: Timestamp): (e: Expense)
    ensures e.amount == button.amount
    ensures e.categoryId == button.categoryId
    ensures e.description == button.name
    ensures e.id == id && e.date == now
  {
    Expense(id, button.amount, button.categoryId, button.name, now)
  }

  /** `handleQuickAdd`: add the templated expense, then reload. */
  function HandleQuickAdd(pg: Page, button: QuickAddButton, id: string, now: Timestamp, ok: bool): (r: Page)
    ensures r.view.expenses
         == Storage.GetExpenses(pg.store) + (if ok then [QuickAddExpense(button, id, now)] else [])
    ensures r.view.categories == Storage.GetCategories(pg.store)
    ensures r.view.buttons == Storage.GetQuickAddButtons(pg.store)
    ensures r.store == Storage.AddExpense(pg.store, QuickAddExpense(button, id, now), ok)
    ensures r.view == Storage.Read(r.store)
    ensures r.period == pg.period && r.editing == pg.editing
    ensures r.showExpenseForm == pg.showExpenseForm && r.showQuickAddForm == pg.showQuickAddForm
    ensures r.showCategoryForm == pg.showCategoryForm
  {
    LoadData(pg.(store := Storage.AddExpense(pg.store, QuickAddExpense(button, id, now), ok)))
  }

  /** `handleDeleteExpense`: delete by the item's id, then reload. */
  function HandleDeleteExpense(pg: Page, id: string, ok: bool): (r: Page)
    ensures r.store == Storage.DeleteExpense(pg.store, id, ok)
    ensures ok ==> r.view.expenses == Collection.RemoveId(Storage.GetExpenses(pg.store), ExpenseId, id)
    ensures ok ==> !Collection.HasId(r.view.expenses, ExpenseId, id)
    ensures ok ==> forall x :: multiset(r.view.expenses)[x]
                     == if x.id == id then 0 else multiset(Storage.GetExpenses(pg.store))[x]
    ensures !ok ==> r.view.expenses == Storage.GetExpenses(pg.store)
    ensures r.view.categories == Storage.GetCategories(pg.store)
    ensures r.view.buttons == Storage.GetQuickAddButtons(pg.store)
  {
    var r := LoadData(pg.(store := Storage.DeleteExpense(pg.store, id, ok)));
    forall x | ok
      ensures multiset(r.view.expenses)[x]
           == if x.id == id then 0 else multiset(Storage.GetExpenses(pg.store))[x]
    {
      Collection.FilterCounts(Storage.GetExpenses(pg.store), Collection.OtherId(ExpenseId, id), x);
    }
    r
  }

  /** `handleEditExpense`: remember the expense and open the expense dialog. */
  function HandleEditExpense(pg: Page, e: Expense): (r: Page)
    ensures r.editing == Some(e) && r.showExpenseForm
    ensures r.showQuickAddForm == pg.showQuickAddForm && r.showCategoryForm == pg.showCategoryForm
    ensures r.store == pg.store && r.view == pg.view
  {
    pg.(editing := Some(e), showExpenseForm := true)
  }

  /** `handleFormClose`: close all three dialogs, forget the edited expense, reload. */
  function HandleFormClose(pg: Page): (r: Page)
    ensures !r.showExpenseForm && !r.showQuickAddForm && !r.showCategoryForm
    ensures r.editing.None?
    ensures r.store == pg.store && r.view == Storage.Read(pg.store)
    ensures r.period == pg.period
  {
    LoadData(pg.(showExpenseForm := false, showQuickAddForm := false, showCategoryForm := false, editing := None))
  }

  /**
   * Submitting the expense dialog: the dialog's own submit handler, then
   * `onSuccess` (the form-close handler) when it saved. The remembered
   * `editing` expense plays no part.
   */
  function SaveExpenseDialog(pg: Page, f: Forms.ExpenseFields, id: string, parseAmount: string -> Amount, ok: bool): (r: Page)
    ensures f.amount == "" || f.categoryId == "" ==> r == pg
    ensures f.amount != "" && f.categoryId != "" ==>
              && !r.showExpenseForm && !r.showQuickAddForm && !r.showCategoryForm
              && r.editing.None?
              && r.view == Storage.Read(r.store)
              && r.view.categories == Storage.GetCategories(pg.store)
              && r.view.buttons == Storage.GetQuickAddButtons(pg.store)
              && r.period == pg.period
              && r.view.expenses
                 == Storage.GetExpenses(pg.store)
                    + (if ok then [Expense(id, parseAmount(f.amount), f.categoryId, f.description,
                                           Forms.ExpenseTimestamp(f.dayStart, f.time))]
                       else [])
  {
    var out := Forms.SubmitExpense(pg.store, f, id, parseAmount, ok);
    match out.result
    case Rejected => pg
    case Saved(_) => HandleFormClose(pg.(store := out.store))
  }

  /**
   * Editing never replaces a record: after "Edit" on any expense and a
   * successful save, every expense that was stored is still stored at its
   * position and one new expense follows them.
   */
  lemma EditAppendsNewExpense(pg: Page, e: Expense, f: Forms.ExpenseFields, id: string, parseAmount: string -> Amount)
    requires f.amount != "" && f.categoryId != ""
    ensures var after := SaveExpenseDialog(HandleEditExpense(pg, e), f, id, parseAmount, true).view.expenses;
            && |after| == |Storage.GetExpenses(pg.store)| + 1
            && after[..|Storage.GetExpenses(pg.store)|] == Storage.GetExpenses(pg.store)
            && after[|after| - 1].id == id
  {
    var before := Storage.GetExpenses(pg.store);
    var after := SaveExpenseDialog(HandleEditExpense(pg, e), f, id, parseAmount, true).view.expenses;
    assert after[..|before|] == before;
  }

  /** `getCategoryById`: the first category with that id, if any. */
  function CategoryById(cats: seq<Category>, id: string): (r: Option<Category>)
    ensures r.None? <==> forall i :: 0 <= i < |cats| ==> cats[i].id != id
    ensures r.Some? ==> exists i :: 0 <= i < |cats| && cats[i] == r.value
                         && r.value.id == id
                         && forall j :: 0 <= j < i ==> cats[j].id != id
  {
    Collection.FindFirst(cats, CategoryId, id)
  }

  /** The history tab: every expense, newest first, equal dates in stored order. */
  function History(es: seq<Expense>): (r: seq<Expense>)
    ensures Sorting.SortedDesc(r, ExpenseDate)
    ensures multiset(r) == multiset(es)
  {
    Sorting.SortDesc(es, ExpenseDate)
  }

  /** Among expenses with the same date the history keeps the stored order. */
  lemma HistoryStable(es: seq<Expense>, date: Timestamp)
    ensures Sorting.Ties(History(es), ExpenseDate, date) == Sorting.Ties(es, ExpenseDate, date)
  {
    Sorting.SortDescStable(es, ExpenseDate, date);
  }

  /**
   * The history is the one order a stable sort by descending date can
   * produce: any arrangement of the expenses that is sorted newest first
   * and keeps equal dates in stored order is the history.
   */
  lemma HistoryIsTheStableSort(es: seq<Expense>, other: seq<Expense>)
    requires Sorting.SortedDesc(other, ExpenseDate)
    requires multiset(other) == multiset(es)
    requires forall v :: Sorting.Ties(other, ExpenseDate, v) == Sorting.Ties(es, ExpenseDate, v)
    ensures other == History(es)
  {
    forall v ensures Sorting.Ties(other, ExpenseDate, v) == Sorting.Ties(History(es), ExpenseDate, v) {
      HistoryStable(es, v);
    }
    Sorting.StableSortIsUnique(other, History(es), ExpenseDate);
  }

  /** The overview tab's "recent" list: the first three of the history. */
  function Recent(es: seq<Expense>): (r: seq<Expense>)
    ensures |r| == if |es| < 3 then |es| else 3
    ensures Sorting.SortedDesc(r, ExpenseDate)
    ensures multiset(r) <= multiset(es)
    ensures forall i, x :: 0 <= i < |r| && x in multiset(es) - multiset(r) ==> r[i].date >= x.date
    ensures r <= History(es)
  {
    var h := History(es);
    var r := Sorting.Take(h, 3);
    Sorting.TakeOfSorted(h, ExpenseDate, 3);
    r
  }
}

=== FILE: records.dfy ===
/**
 * The domain records of the expense tracker: expenses, categories,
 * quick-add buttons and the display period.
 *
 * Amounts are whole cents and timestamps are milliseconds since the epoch;
 * the application itself keeps amounts as JavaScript numbers and dates as
 * ISO-8601 strings.
 */
module Records {

  /** Money in cents. */
  type Amount = int

  /** A point in time, in milliseconds since the epoch. */
  type Timestamp = int

  datatype Option<+T> = None | Some(value: T)

  datatype Expense = Expense(
    id: string,
    amount: Amount,
    categoryId: string,
    description: string,
    date: Timestamp)

  datatype Category = Category(
    id: string,
    name: string,
    color: string,
    icon: string)

  datatype QuickAddButton = QuickAddButton(
    id: string,
    name: string,
    amount: Amount,
    categoryId: string)

  /** The time window a summary is computed over. */
  datatype Period = Day | Week | Month | Year | All

  function ExpenseId(e: Expense): string { e.id }

  function CategoryId(c: Category): string { c.id }

  function ButtonId(b: QuickAddButton): string { b.id }

  function ExpenseDate(e: Expense): int { e.date }
}

=== FILE: sorting.dfy ===
/**
 * Stable descending sort by an integer key, and the "first n" slice.
 *
 * The application sorts with Array.prototype.sort and a comparator of the
 * form `(a, b) => key(b) - key(a)`. ECMAScript requires that sort to be
 * stable, so the result is the permutation of the input that is ordered
 * non-increasingly by key and keeps equal-key elements in input order.
 * `SortDesc` is an insertion sort with exactly that outcome;
 * `StableSortIsUnique` shows no other sequence has all three properties.
 */
module Sorting {

  /** Non-increasing by `key`. */
  predicate SortedDesc<T>(s: seq<T>, key: T -> int)
  {
    forall i, j :: 0 <= i < j < |s| ==> key(s[i]) >= key(s[j])
  }

  /** The elements of `s` whose key is `v`, in the order they occur in `s`. */
  function Ties<T>(s: seq<T>, key: T -> int, v: int): seq<T>
  {
    if |s| == 0 then []
    else (if key(s[0]) == v then [s[0]] else []) + Ties(s[1..], key, v)
  }

  /**
   * Places `x` in front of the first element whose key is not larger than
   * its own, so `x` precedes the elements it ties with.
   */
  function Insert<T>(x: T, s: seq<T>, key: T -> int): (r: seq<T>)
    requires SortedDesc(s, key)
    ensures SortedDesc(r, key)
    ensures multiset(r) == multiset(s) + multiset{x}
    ensures |r| == |s| + 1
  {
    if |s| == 0 || key(s[0]) <= key(x) then [x] + s
    else
      SortedTail(s, key);
      var rest := Insert(x, s[1..], key);
      forall y | y in multiset(rest) ensures key(y) <= key(s[0]) {
        AtMostHead(x, s, key, y);
      }
      ConsSorted(s[0], rest, key);
      MultisetTail(s);
      [s[0]] + rest
  }

  lemma SortedTail<T>(s: seq<T>, key: T -> int)
    requires |s| > 0 && SortedDesc(s, key)
    ensures SortedDesc(s[1..], key)
  {
    forall i, j | 0 <= i < j < |s| - 1 ensures key(s[1..][i]) >= key(s[1..][j]) {
      assert s[1..][i] == s[i + 1] && s[1..][j] == s[j + 1];
    }
  }

  lemma MultisetTail<T>(s: seq<T>)
    requires |s| > 0
    ensures multiset(s[1..]) == multiset(s) - multiset{s[0]}
    ensures multiset(s) == multiset(s[1..]) + multiset{s[0]}
  {
    assert s == [s[0]] + s[1..];
  }

  /** Putting an element in front of a sorted sequence whose keys are no larger keeps it sorted. */
  lemma ConsSorted<T>(h: T, rest: seq<T>, key: T -> int)
    requires SortedDesc(rest, key)
    requires forall y :: y in multiset(rest) ==> key(y) <= key(h)
    ensures SortedDesc([h] + rest, key)
  {
    var r := [h] + rest;
    forall i, j | 0 <= i < j < |r| ensures key(r[i]) >= key(r[j]) {
      assert r[j] == rest[j - 1];
      if i == 0 {
        assert rest[j - 1] in multiset(rest);
      } else {
        assert r[i] == rest[i - 1];
      }
    }
  }

  /** An element of `Insert(x, s[1..])` has a key no larger than `s[0]`'s when `x` does. */
  lemma AtMostHead<T>(x: T, s: seq<T>, key: T -> int, y: T)
    requires SortedDesc(s, key)
    requires |s| > 0 && key(s[0]) > key(x)
    requires y in multiset(s[1..]) + multiset{x}
    ensures key(y) <= key(s[0])
  {
    if y != x {
      assert y in s[1..];
      var j :| 0 <= j < |s[1..]| && s[1..][j] == y;
      assert s[j + 1] == y;
    }
  }

  /** Stable sort, largest key first. */
  function SortDesc<T>(s: seq<T>, key: T -> int): (r: seq<T>)
    ensures SortedDesc(r, key)
    ensures multiset(r) == multiset(s)
    ensures |r| == |s|
  {
    if |s| == 0 then []
    else
      assert s == [s[0]] + s[1..];
      Insert(s[0], SortDesc(s[1..], key), key)
  }

  /** `Array.prototype.slice(0, n)`. */
  function Take<T>(s: seq<T>, n: nat): (r: seq<T>)
    ensures |r| == if n < |s| then n else |s|
    ensures r <= s
  {
    if n < |s| then s[..n] else s
  }

  /**
   * The first `n` of a sorted sequence are sorted, and none of the
   * elements left behind has a larger key than any of them.
   */
  lemma TakeOfSorted<T>(s: seq<T>, key: T -> int, n: nat)
    requires SortedDesc(s, key)
    ensures SortedDesc(Take(s, n), key)
    ensures multiset(Take(s, n)) <= multiset(s)
    ensures forall i, x :: 0 <= i < |Take(s, n)| && x in multiset(s) - multiset(Take(s, n))
              ==> key(Take(s, n)[i]) >= key(x)
  {
    var r := Take(s, n);
    var rest := s[|r|..];
    assert s == r + rest;
    assert multiset(s) == multiset(r) + multiset(rest);
    forall i, x | 0 <= i < |r| && x in multiset(s) - multiset(r) ensures key(r[i]) >= key(x) {
      assert x in multiset(rest);
      var j :| 0 <= j < |rest| && rest[j] == x;
      assert s[|r| + j] == x;
      assert r[i] == s[i];
    }
  }

  lemma {:induction false} TiesAppend<T>(a: seq<T>, b: seq<T>, key: T -> int, v: int)
    ensures Ties(a + b, key, v) == Ties(a, key, v) + Ties(b, key, v)
    decreases |a|
  {
    if |a| == 0 {
      assert a + b == b;
    } else {
      assert (a + b)[0] == a[0];
      assert (a + b)[1..] == a[1..] + b;
      TiesAppend(a[1..], b, key, v);
    }
  }

  lemma TiesSingle<T>(x: T, key: T -> int, v: int)
    ensures Ties([x], key, v) == if key(x) == v then [x] else []
  {
    assert [x][1..] == [];
  }

  /** Inserting `x` puts it ahead of everything it ties with and moves no tie. */
  lemma {:induction false} InsertTies<T>(x: T, s: seq<T>, key: T -> int, v: int)
    requires SortedDesc(s, key)
    ensures Ties(Insert(x, s, key), key, v)
         == (if key(x) == v then [x] else []) + Ties(s, key, v)
    decreases |s|
  {
    if |s| == 0 || key(s[0]) <= key(x) {
      assert Insert(x, s, key) == [x] + s;
      TiesAppend([x], s, key, v);
      TiesSingle(x, key, v);
    } else {
      TiesSingle(s[0], key, v);
      var rest := Insert(x, s[1..], key);
      assert Insert(x, s, key) == [s[0]] + rest;
      InsertTies(x, s[1..], key, v);
      TiesAppend([s[0]], rest, key, v);
      TiesAppend([s[0]], s[1..], key, v);
      assert s == [s[0]] + s[1..];
      var hx := if key(x) == v then [x] else [];
      var h0 := Ties([s[0]], key, v);
      assert h0 == [] || hx == [];
      assert h0 + (hx + Ties(s[1..], key, v)) == hx + (h0 + Ties(s[1..], key, v));
    }
  }

  /** The sort is stable: elements with equal keys keep their input order. */
  lemma {:induction false} SortDescStable<T>(s: seq<T>, key: T -> int, v: int)
    ensures Ties(SortDesc(s, key), key, v) == Ties(s, key, v)
    decreases |s|
  {
    if |s| > 0 {
      SortDescStable(s[1..], key, v);
      InsertTies(s[0], SortDesc(s[1..], key), key, v);
      TiesAppend([s[0]], s[1..], key, v);
      assert s == [s[0]] + s[1..];
    }
  }

  /** A non-empty sorted sequence begins with an element of the largest key. */
  lemma HeadIsMax<T>(s: seq<T>, key: T -> int, y: T)
    requires SortedDesc(s, key)
    requires y in s
    ensures key(s[0]) >= key(y)
  {
    var j :| 0 <= j < |s| && s[j] == y;
    if j > 0 {
      assert key(s[0]) >= key(s[j]);
    }
  }

  /** The tie class of the head starts with the head. */
  lemma TiesHead<T>(s: seq<T>, key: T -> int)
    requires |s| > 0
    ensures |Ties(s, key, key(s[0]))| > 0 && Ties(s, key, key(s[0]))[0] == s[0]
  {
  }

  /** Two sequences with the same head and the same tie class have the same tie class after it. */
  lemma TiesTail<T>(a: seq<T>, b: seq<T>, key: T -> int, w: int)
    requires |a| > 0 && |b| > 0 && a[0] == b[0]
    requires Ties(a, key, w) == Ties(b, key, w)
    ensures Ties(a[1..], key, w) == Ties(b[1..], key, w)
  {
    var h := if key(a[0]) == w then [a[0]] else [];
    assert Ties(a, key, w) == h + Ties(a[1..], key, w);
    assert Ties(b, key, w) == h + Ties(b[1..], key, w);
    assert Ties(a[1..], key, w) == (h + Ties(a[1..], key, w))[|h|..];
    assert Ties(b[1..], key, w) == (h + Ties(b[1..], key, w))[|h|..];
  }

  /**
   * Two sequences that are both sorted by `key`, are permutations of each
   * other and agree on every tie class are equal: the outcome of a stable
   * sort is determined by its input.
   */
  lemma {:induction false} StableSortIsUnique<T(!new)>(a: seq<T>, b: seq<T>, key: T -> int)
    requires SortedDesc(a, key) && SortedDesc(b, key)
    requires multiset(a) == multiset(b)
    requires forall v :: Ties(a, key, v) == Ties(b, key, v)
    ensures a == b
    decreases |a|
  {
    assert |a| == |multiset(a)| == |multiset(b)| == |b|;
    if |a| > 0 {
      assert a[0] in multiset(b);
      assert b[0] in multiset(a);
      HeadIsMax(b, key, a[0]);
      HeadIsMax(a, key, b[0]);
      var v := key(a[0]);
      assert key(b[0]) == v;
      TiesHead(a, key);
      TiesHead(b, key);
      assert a[0] == b[0];
      forall w ensures Ties(a[1..], key, w) == Ties(b[1..], key, w) {
        TiesTail(a, b, key, w);
      }
      MultisetTail(a);
      MultisetTail(b);
      SortedTail(a, key);
      SortedTail(b, key);
      StableSortIsUnique(a[1..], b[1..], key);
      assert a == [a[0]] + a[1..];
      assert b == [b[0]] + b[1..];
    }
  }
}

=== FILE: storage.dfy ===
/**
 * The persistence layer of src/utils/storage.ts: three collections kept
 * under fixed keys of a string-keyed local store, each read and rewritten
 * whole.
 *
 * The store maps a key to the text held there. That text is empty, not
 * parsable as JSON, or the serialisation of a collection; the
 * serialisation is represented by the collection it decodes to
 * (JSON.stringify followed by JSON.parse rebuilds the same records). A
 * write either succeeds or fails; the caller does not learn which (the
 * `ok` parameter).
 */
module Storage {
  import opened Records
  import Collection

  const ExpensesKey: string := "expenses"
  const CategoriesKey: string := "categories"
  const QuickAddButtonsKey: string := "quickAddButtons"

  /** What the category slot reads as before anything was written to it. */
  const DefaultCategories: seq<Category> := [
    Category("1", "Food", "#00dac0", "utensils"),
    Category("2", "Transport", "#407BFF", "car"),
    Category("3", "Entertainment", "#FF7043", "film"),
    Category("4", "Shopping", "#FF4081", "shopping-bag"),
    Category("5", "Bills", "#6C63FF", "file-text")
  ]

  /** A collection as JSON.parse rebuilds it from the stored text. */
  datatype Payload =
    | ExpenseList(expenses: seq<Expense>)
    | CategoryList(categories: seq<Category>)
    | ButtonList(buttons: seq<QuickAddButton>)

  /** The text held under one key. */
  datatype Cell = EmptyText | Unparsable | Serialized(payload: Payload)

  /** The local store; a missing key is an absent entry. */
  type Backing = map<string, Cell>

  /**
   * One collection of the store: its key, the value a read falls back to,
   * how a collection is serialised and read back, and the record id.
   */
  datatype Slot<!T> = Slot(
    key: string,
    default: seq<T>,
    wrap: seq<T> -> Payload,
    unwrap: Payload -> Option<seq<T>>,
    idOf: T -> string)

  /** Reading back what was serialised gives the same collection. */
  ghost predicate RoundTrips<T(!new)>(s: Slot<T>)
  {
    forall xs :: s.unwrap(s.wrap(xs)) == Some(xs)
  }

  /** `b` and `b'` agree on every key other than `key`. */
  ghost predicate SameExcept(b: Backing, b': Backing, key: string)
  {
    forall k :: k != key ==> (k in b <==> k in b') && (k in b ==> b[k] == b'[k])
  }

  const ExpenseSlot: Slot<Expense> := Slot(
    ExpensesKey, [],
    xs => ExpenseList(xs),
    (p: Payload) => if p.ExpenseList? then Some(p.expenses) else None,
    ExpenseId)

  const CategorySlot: Slot<Category> := Slot(
    CategoriesKey, DefaultCategories,
    xs => CategoryList(xs),
    (p: Payload) => if p.CategoryList? then Some(p.categories) else None,
    CategoryId)

  const ButtonSlot: Slot<QuickAddButton> := Slot(
    QuickAddButtonsKey, [],
    xs => ButtonList(xs),
    (p: Payload) => if p.ButtonList? then Some(p.buttons) else None,
    ButtonId)

  lemma SlotsRoundTrip()
    ensures RoundTrips(ExpenseSlot) && RoundTrips(CategorySlot) && RoundTrips(ButtonSlot)
  {
  }

  /**
   * `getItem`: the stored collection, or the slot's default when the key is
   * absent, holds the empty string, cannot be parsed, or holds a collection
   * of another record type.
   */
  function GetItem<T>(b: Backing, s: Slot<T>): (r: seq<T>)
    ensures s.key !in b ==> r == s.default
    ensures s.key in b && !b[s.key].Serialized? ==> r == s.default
  {
    if s.key !in b then s.default
    else match b[s.key]
      case Serialized(p) =>
        (match s.unwrap(p)
         case Some(xs) => xs
         case None => s.default)
      case _ => s.default
  }

  /**
   * `setItem`: a successful write replaces the text under the slot's key; a
   * failed one is swallowed and leaves the store as it was. No other key is
   * touched either way.
   */
  function SetItem<T(!new)>(b: Backing, s: Slot<T>, xs: seq<T>, ok: bool): (r: Backing)
    ensures SameExcept(b, r, s.key)
    ensures !ok ==> r == b
    ensures ok && RoundTrips(s) ==> s.key in r && r[s.key].Serialized? && GetItem(r, s) == xs
  {
    if ok then b[s.key := Serialized(s.wrap(xs))] else b
  }

  /** `add`: read, append, write back; no check for an existing id. */
  function Add<T(!new)>(b: Backing, s: Slot<T>, x: T, ok: bool): (r: Backing)
    requires RoundTrips(s)
    ensures SameExcept(b, r, s.key)
    ensures ok ==> GetItem(r, s) == GetItem(b, s) + [x]
    ensures !ok ==> r == b
  {
    SetItem(b, s, GetItem(b, s) + [x], ok)
  }

  /**
   * `update`: with a record of the same id present, the first such record
   * is replaced and the collection written back; with none, nothing is
   * written at all.
   */
  function Update<T(!new)>(b: Backing, s: Slot<T>, x: T, ok: bool): (r: Backing)
    requires RoundTrips(s)
    ensures SameExcept(b, r, s.key)
    ensures !Collection.HasId(GetItem(b, s), s.idOf, s.idOf(x)) ==> r == b
    ensures ok ==> |GetItem(r, s)| == |GetItem(b, s)|
    ensures ok ==> forall i | Collection.IsFirstMatch(GetItem(b, s), s.idOf, s.idOf(x), i)
                     :: GetItem(r, s) == GetItem(b, s)[i := x]
    ensures !ok ==> r == b
  {
    var xs := GetItem(b, s);
    match Collection.FindIndex(xs, s.idOf, s.idOf(x))
    case None => b
    case Some(i) => SetItem(b, s, Collection.ReplaceFirst(xs, s.idOf, x), ok)
  }

  /**
   * `delete`: the collection without any record of id `id` is always
   * written back, even when nothing matched.
   */
  function Delete<T(!new)>(b: Backing, s: Slot<T>, id: string, ok: bool): (r: Backing)
    requires RoundTrips(s)
    ensures SameExcept(b, r, s.key)
    ensures ok ==> GetItem(r, s) == Collection.RemoveId(GetItem(b, s), s.idOf, id)
    ensures ok ==> !Collection.HasId(GetItem(r, s), s.idOf, id)
    ensures ok ==> forall x :: multiset(GetItem(r, s))[x]
                     == if s.idOf(x) == id then 0 else multiset(GetItem(b, s))[x]
    ensures ok && !Collection.HasId(GetItem(b, s), s.idOf, id) ==> GetItem(r, s) == GetItem(b, s)
    ensures !ok ==> r == b
  {
    SetItem(b, s, Collection.RemoveId(GetItem(b, s), s.idOf, id), ok)
  }

  /** A change confined to one key leaves every slot kept under another key as it reads. */
  lemma OtherSlotUnaffected<T, U>(b: Backing, b': Backing, s: Slot<T>, t: Slot<U>)
    requires SameExcept(b, b', s.key)
    requires s.key != t.key
    ensures GetItem(b', t) == GetItem(b, t)
  {
  }

  /** Deleting the same id twice leaves the store as deleting it once. */
  lemma {:induction false} DeleteIdempotent<T(!new)>(b: Backing, s: Slot<T>, id: string)
    requires RoundTrips(s)
    ensures Delete(Delete(b, s, id, true), s, id, true) == Delete(b, s, id, true)
  {
    var once := Delete(b, s, id, true);
    assert GetItem(once, s) == Collection.RemoveId(GetItem(b, s), s.idOf, id);
    Collection.RemoveIdIdempotent(GetItem(b, s), s.idOf, id);
  }

  // The three collections of the application.

  /** Reads the expenses; `[]` when the slot holds nothing usable. */
  function GetExpenses(b: Backing): (r: seq<Expense>)
    ensures ExpensesKey !in b ==> r == []
    ensures ExpensesKey in b && !b[ExpensesKey].Serialized? ==> r == []
  {
    GetItem(b, ExpenseSlot)
  }

  /** Reads the categories; the five seed categories when the slot holds nothing usable. */
  function GetCategories(b: Backing): (r: seq<Category>)
    ensures CategoriesKey !in b ==> r == DefaultCategories
    ensures CategoriesKey in b && !b[CategoriesKey].Serialized? ==> r == DefaultCategories
  {
    GetItem(b, CategorySlot)
  }

  /** Reads the quick-add buttons; `[]` when the slot holds nothing usable. */
  function GetQuickAddButtons(b: Backing): (r: seq<QuickAddButton>)
    ensures QuickAddButtonsKey !in b ==> r == []
    ensures QuickAddButtonsKey in b && !b[QuickAddButtonsKey].Serialized? ==> r == []
  {
    GetItem(b, ButtonSlot)
  }

  /** The three collections as they read from `b`. */
  datatype Snapshot = Snapshot(
    expenses: seq<Expense>,
    categories: seq<Category>,
    buttons: seq<QuickAddButton>)

  function Read(b: Backing): Snapshot
  {
    Snapshot(GetExpenses(b), GetCategories(b), GetQuickAddButtons(b))
  }

  /** `addExpense`. */
  function AddExpense(b: Backing, e: Expense, ok: bool): (r: Backing)
    ensures GetExpenses(r) == if ok then GetExpenses(b) + [e] else GetExpenses(b)
    ensures GetCategories(r) == GetCategories(b)
    ensures GetQuickAddButtons(r) == GetQuickAddButtons(b)
  {
    SlotsRoundTrip();
    var r := Add(b, ExpenseSlot, e, ok);
    OtherSlotUnaffected(b, r, ExpenseSlot, CategorySlot);
    OtherSlotUnaffected(b, r, ExpenseSlot, ButtonSlot);
    r
  }

  /** `updateExpense`. */
  function UpdateExpense(b: Backing, e: Expense, ok: bool): (r: Backing)
    ensures ok ==> GetExpenses(r) == Collection.ReplaceFirst(GetExpenses(b), ExpenseId, e)
    ensures !ok ==> r == b
    ensures GetCategories(r) == GetCategories(b)
    ensures GetQuickAddButtons(r) == GetQuickAddButtons(b)
  {
    SlotsRoundTrip();
    var r := Update(b, ExpenseSlot, e, ok);
    OtherSlotUnaffected(b, r, ExpenseSlot, CategorySlot);
    OtherSlotUnaffected(b, r, ExpenseSlot, ButtonSlot);
    r
  }

  /** `deleteExpense`. */
  function DeleteExpense(b: Backing, id: string, ok: bool): (r: Backing)
    ensures ok ==> GetExpenses(r) == Collection.RemoveId(GetExpenses(b), ExpenseId, id)
    ensures !ok ==> r == b
    ensures GetCategories(r) == GetCategories(b)
    ensures GetQuickAddButtons(r) == GetQuickAddButtons(b)
  {
    SlotsRoundTrip();
    var r := Delete(b, ExpenseSlot, id, ok);
    OtherSlotUnaffected(b, r, ExpenseSlot, CategorySlot);
    OtherSlotUnaffected(b, r, ExpenseSlot, ButtonSlot);
    r
  }

  /** `addCategory`. */
  function AddCategory(b: Backing, c: Category, ok: bool): (r: Backing)
    ensures GetCategories(r) == if ok then GetCategories(b) + [c] else GetCategories(b)
    ensures GetExpenses(r) == GetExpenses(b)
    ensures GetQuickAddButtons(r) == GetQuickAddButtons(b)
  {
    SlotsRoundTrip();
    var r := Add(b, CategorySlot, c, ok);
    OtherSlotUnaffected(b, r, CategorySlot, ExpenseSlot);
    OtherSlotUnaffected(b, r, CategorySlot, ButtonSlot);
    r
  }

  /** `updateCategory`. */
  function UpdateCategory(b: Backing, c: Category, ok: bool): (r: Backing)
    ensures ok ==> GetCategories(r) == Collection.ReplaceFirst(GetCategories(b), CategoryId, c)
    ensures !ok ==> r == b
    ensures GetExpenses(r) == GetExpenses(b)
    ensures GetQuickAddButtons(r) == GetQuickAddButtons(b)
  {
    SlotsRoundTrip();
    var r := Update(b, CategorySlot, c, ok);
    OtherSlotUnaffected(b, r, CategorySlot, ExpenseSlot);
    OtherSlotUnaffected(b, r, CategorySlot, ButtonSlot);
    r
  }

  /** `deleteCategory`. */
  function DeleteCategory(b: Backing, id: string, ok: bool): (r: Backing)
    ensures ok ==> GetCategories(r) == Collection.RemoveId(GetCategories(b), CategoryId, id)
    ensures !ok ==> r == b
    ensures GetExpenses(r) == GetExpenses(b)
    ensures GetQuickAddButtons(r) == GetQuickAddButtons(b)
  {
    SlotsRoundTrip();
    var r := Delete(b, CategorySlot, id, ok);
    OtherSlotUnaffected(b, r, CategorySlot, ExpenseSlot);
    OtherSlotUnaffected(b, r, CategorySlot, ButtonSlot);
    r
  }

  /** `addQuickAddButton`. */
  function AddQuickAddButton(b: Backing, q: QuickAddButton, ok: bool): (r: Backing)
    ensures GetQuickAddButtons(r) == if ok then GetQuickAddButtons(b) + [q] else GetQuickAddButtons(b)
    ensures GetExpenses(r) == GetExpenses(b)
    ensures GetCategories(r) == GetCategories(b)
  {
    SlotsRoundTrip();
    var r := Add(b, ButtonSlot, q, ok);
    OtherSlotUnaffected(b, r, ButtonSlot, ExpenseSlot);
    OtherSlotUnaffected(b, r, ButtonSlot, CategorySlot);
    r
  }

  /** `updateQuickAddButton`. */
  function UpdateQuickAddButton(b: Backing, q: QuickAddButton, ok: bool): (r: Backing)
    ensures ok ==> GetQuickAddButtons(r) == Collection.ReplaceFirst(GetQuickAddButtons(b), ButtonId, q)
    ensures !ok ==> r == b
    ensures GetExpenses(r) == GetExpenses(b)
    ensures GetCategories(r) == GetCategories(b)
  {
    SlotsRoundTrip();
    var r := Update(b, ButtonSlot, q, ok);
    OtherSlotUnaffected(b, r, ButtonSlot, ExpenseSlot);
    OtherSlotUnaffected(b, r, ButtonSlot, CategorySlot);
    r
  }

  /** `deleteQuickAddButton`. */
  function DeleteQuickAddButton(b: Backing, id: string, ok: bool): (r: Backing)
    ensures ok ==> GetQuickAddButtons(r) == Collection.RemoveId(GetQuickAddButtons(b), ButtonId, id)
    ensures !ok ==> r == b
    ensures GetExpenses(r) == GetExpenses(b)
    ensures GetCategories(r) == GetCategories(b)
  {
    SlotsRoundTrip();
    var r := Delete(b, ButtonSlot, id, ok);
    OtherSlotUnaffected(b, r, ButtonSlot, ExpenseSlot);
    OtherSlotUnaffected(b, r, ButtonSlot, CategorySlot);
    r
  }

  /** The seed list: ids '1' to '5' in that order. */
  lemma DefaultCategoryIds()
    ensures |DefaultCategories| == 5
    ensures forall i :: 0 <= i < 5 ==> DefaultCategories[i].id == [('1' as int + i) as char]
  {
  }

  /** A category added to a store that never held categories lands after the five seeds. */
  lemma AddCategoryToEmptyStore(b: Backing, c: Category)
    requires CategoriesKey !in b
    ensures GetCategories(AddCategory(b, c, true)) == DefaultCategories + [c]
  {
  }
}

=== FILE: summary.dfy ===
/**
 * The aggregation of src/components/ExpenseSummary.tsx: keep the expenses
 * of the selected period, total them, total them per category, drop the
 * categories whose total is not positive, and order the rest largest
 * first.
 */
module Summary {
  import opened Records
  import Collection
  import Sorting
  import Dates

  /** One wedge of the category chart. */
  datatype Slice = Slice(id: string, name: string, value: Amount, color: string)

  /** What the summary card shows. */
  datatype Overview = Overview(total: Amount, breakdown: seq<Slice>)

  function SliceValue(s: Slice): int { s.value }

  /** The test `expense => isInPeriod(expense.date, period)`. */
  function InPeriodTest(period: Period, cal: Dates.Calendar, now: Timestamp): Expense -> bool
  {
    (e: Expense) => Dates.InPeriod(e.date, period, cal, now)
  }

  /** The test `expense => expense.categoryId === id`. */
  function InCategory(id: string): Expense -> bool
  {
    (e: Expense) => e.categoryId == id
  }

  /** The test `item => item.value > 0`. */
  function IsPositive(s: Slice): bool { s.value > 0 }

  /** `filteredExpenses`: the expenses of the period, in their original order. */
  function PeriodExpenses(es: seq<Expense>, period: Period, cal: Dates.Calendar, now: Timestamp): (r: seq<Expense>)
    ensures forall i :: 0 <= i < |r| ==> Dates.InPeriod(r[i].date, period, cal, now)
    ensures period == All ==> r == es
  {
    var r := Collection.Filter(es, InPeriodTest(period, cal, now));
    assert forall i :: 0 <= i < |r| ==> InPeriodTest(period, cal, now)(r[i]);
    r
  }

  /** `reduce((acc, e) => acc + e.amount, 0)`: a left fold from zero. */
  function Total(es: seq<Expense>): (r: Amount)
    ensures |es| == 0 ==> r == 0
    ensures |es| > 0 ==> r == es[0].amount + Total(es[1..])
    ensures (forall i :: 0 <= i < |es| ==> es[i].amount >= 0) ==> r >= 0
  {
    if |es| == 0 then 0
    else
      var init := es[..|es| - 1];
      var last := es[|es| - 1].amount;
      assert |es| > 1 ==> init[1..] == es[1..][..|es[1..]| - 1] && init[0] == es[0];
      Total(init) + last
  }

  lemma {:induction false} TotalAppend(a: seq<Expense>, b: seq<Expense>)
    ensures Total(a + b) == Total(a) + Total(b)
    decreases |b|
  {
    if |b| == 0 {
      assert a + b == a;
    } else {
      assert (a + b)[..|a + b| - 1] == a + b[..|b| - 1];
      TotalAppend(a, b[..|b| - 1]);
    }
  }

  /** The amount spent in category `id` among `fs`. */
  function CategoryTotal(fs: seq<Expense>, id: string): (r: Amount)
    ensures (forall i :: 0 <= i < |fs| ==> fs[i].categoryId != id) ==> r == 0
    ensures (forall i :: 0 <= i < |fs| ==> fs[i].categoryId == id) ==> r == Total(fs)
  {
    var kept := Collection.Filter(fs, InCategory(id));
    assert (forall i :: 0 <= i < |fs| ==> fs[i].categoryId != id) ==> kept == [] by {
      Collection.FilterShrinks(fs, InCategory(id));
      if |kept| > 0 {
        assert kept[0] in multiset(fs);
        assert InCategory(id)(kept[0]);
      }
    }
    Total(kept)
  }

  /** `categories.map(...)`: one slice per category, in category order. */
  function CategorySlices(cats: seq<Category>, fs: seq<Expense>): (r: seq<Slice>)
    ensures |r| == |cats|
    ensures forall i :: 0 <= i < |cats| ==>
              r[i] == Slice(cats[i].id, cats[i].name, CategoryTotal(fs, cats[i].id), cats[i].color)
  {
    if |cats| == 0 then []
    else
      var c := cats[0];
      [Slice(c.id, c.name, CategoryTotal(fs, c.id), c.color)] + CategorySlices(cats[1..], fs)
  }

  /**
   * `expensesByCategory` after its sort: the positive category totals,
   * largest first, ties in category order.
   */
  function Breakdown(cats: seq<Category>, fs: seq<Expense>): (r: seq<Slice>)
    ensures |r| <= |cats|
    ensures Sorting.SortedDesc(r, SliceValue)
    ensures forall i :: 0 <= i < |r| ==> r[i].value > 0
    ensures forall s :: multiset(r)[s] == if s.value > 0 then multiset(CategorySlices(cats, fs))[s] else 0
    ensures forall i :: 0 <= i < |r| ==> exists j :: 0 <= j < |cats| && r[i] == CategorySlices(cats, fs)[j]
  {
    var all := CategorySlices(cats, fs);
    var kept := Collection.Filter(all, IsPositive);
    var r := Sorting.SortDesc(kept, SliceValue);
    forall s ensures multiset(r)[s] == if s.value > 0 then multiset(all)[s] else 0 {
      Collection.FilterCounts(all, IsPositive, s);
    }
    PositiveMembers(all, r);
    r
  }

  lemma PositiveMembers(all: seq<Slice>, r: seq<Slice>)
    requires forall s :: multiset(r)[s] == if s.value > 0 then multiset(all)[s] else 0
    ensures forall i :: 0 <= i < |r| ==> r[i].value > 0 && r[i] in all
  {
    forall i | 0 <= i < |r| ensures r[i].value > 0 && r[i] in all {
      assert multiset(r)[r[i]] > 0;
    }
  }

  /** The whole card: total and breakdown over the period's expenses. */
  function Summarize(es: seq<Expense>, cats: seq<Category>, period: Period, cal: Dates.Calendar, now: Timestamp): (r: Overview)
    ensures r.total == Total(PeriodExpenses(es, period, cal, now))
    ensures r.breakdown == Breakdown(cats, PeriodExpenses(es, period, cal, now))
    ensures period == All ==> r.total == Total(es)
  {
    var fs := PeriodExpenses(es, period, cal, now);
    Overview(Total(fs), Breakdown(cats, fs))
  }

  /**
   * The period filter keeps each expense of the period as often as it
   * occurs and no other, and the survivors keep their relative order.
   */
  lemma PeriodExpensesExact(a: seq<Expense>, b: seq<Expense>, period: Period, cal: Dates.Calendar, now: Timestamp, x: Expense)
    ensures multiset(PeriodExpenses(a, period, cal, now))[x]
         == if Dates.InPeriod(x.date, period, cal, now) then multiset(a)[x] else 0
    ensures PeriodExpenses(a + b, period, cal, now)
         == PeriodExpenses(a, period, cal, now) + PeriodExpenses(b, period, cal, now)
  {
    Collection.FilterCounts(a, InPeriodTest(period, cal, now), x);
    Collection.FilterDistributes(a, b, InPeriodTest(period, cal, now));
  }

  /** Ties in the breakdown keep the order of the categories they come from. */
  lemma BreakdownStable(cats: seq<Category>, fs: seq<Expense>, v: int)
    ensures Sorting.Ties(Breakdown(cats, fs), SliceValue, v)
         == Sorting.Ties(Collection.Filter(CategorySlices(cats, fs), IsPositive), SliceValue, v)
  {
    Sorting.SortDescStable(Collection.Filter(CategorySlices(cats, fs), IsPositive), SliceValue, v);
  }

  /** On a nested calendar, a wider period keeps every expense a narrower one keeps. */
  lemma PeriodNesting(es: seq<Expense>, finer: Period, coarser: Period, cal: Dates.Calendar, now: Timestamp)
    requires Dates.Nested(cal)
    requires Dates.Within(finer, coarser)
    ensures multiset(PeriodExpenses(es, finer, cal, now)) <= multiset(PeriodExpenses(es, coarser, cal, now))
  {
    forall x ensures multiset(PeriodExpenses(es, finer, cal, now))[x] <= multiset(PeriodExpenses(es, coarser, cal, now))[x] {
      PeriodExpensesExact(es, [], finer, cal, now, x);
      PeriodExpensesExact(es, [], coarser, cal, now, x);
      if Dates.InPeriod(x.date, finer, cal, now) {
        Dates.InPeriodMonotone(x.date, finer, coarser, cal, now);
      }
    }
  }

  // Conservation: every filtered expense is counted in the total, and in
  // exactly one slice when its category exists and in none otherwise.

  /** No two categories share an id. */
  predicate DistinctIds(cats: seq<Category>)
  {
    forall i, j :: 0 <= i < j < |cats| ==> cats[i].id != cats[j].id
  }

  /** The test "refers to none of `cats`". */
  function Orphan(cats: seq<Category>): Expense -> bool
  {
    (e: Expense) => !Collection.HasId(cats, CategoryId, e.categoryId)
  }

  function SliceSum(ss: seq<Slice>): int
  {
    if |ss| == 0 then 0 else ss[0].value + SliceSum(ss[1..])
  }

  /** What one expense adds to the slices of `cats`. */
  function Share(cats: seq<Category>, e: Expense): int
  {
    if |cats| == 0 then 0
    else (if e.categoryId == cats[0].id then e.amount else 0) + Share(cats[1..], e)
  }

  lemma {:induction false} ShareOfOne(cats: seq<Category>, e: Expense)
    requires DistinctIds(cats)
    ensures Share(cats, e) == if Collection.HasId(cats, CategoryId, e.categoryId) then e.amount else 0
    decreases |cats|
  {
    if |cats| > 0 {
      ShareOfOne(cats[1..], e);
      if e.categoryId == cats[0].id {
        assert !Collection.HasId(cats[1..], CategoryId, e.categoryId);
      } else {
        if Collection.HasId(cats, CategoryId, e.categoryId) {
          var j :| 0 <= j < |cats| && CategoryId(cats[j]) == e.categoryId;
          assert cats[1..][j - 1] == cats[j];
        }
        if Collection.HasId(cats[1..], CategoryId, e.categoryId) {
          var j :| 0 <= j < |cats[1..]| && CategoryId(cats[1..][j]) == e.categoryId;
          assert cats[j + 1] == cats[1..][j];
        }
      }
    }
  }

  lemma TotalFront(e: Expense, rest: seq<Expense>)
    ensures Total([e] + rest) == e.amount + Total(rest)
  {
    assert ([e] + rest)[1..] == rest;
  }

  /** Adding one expense in front raises every slice sum by its share. */
  lemma {:induction false} SliceSumFront(cats: seq<Category>, e: Expense, rest: seq<Expense>)
    ensures SliceSum(CategorySlices(cats, [e] + rest)) == Share(cats, e) + SliceSum(CategorySlices(cats, rest))
    decreases |cats|
  {
    if |cats| > 0 {
      SliceSumFront(cats[1..], e, rest);
      var id := cats[0].id;
      Collection.FilterFront(e, rest, InCategory(id));
      if e.categoryId == id {
        TotalFront(e, Collection.Filter(rest, InCategory(id)));
      } else {
        assert Collection.Filter([e] + rest, InCategory(id)) == Collection.Filter(rest, InCategory(id));
      }
      assert CategoryTotal([e] + rest, id) == (if e.categoryId == id then e.amount else 0) + CategoryTotal(rest, id);
    }
  }

  /**
   * With distinct category ids, the total is the sum of all category
   * totals plus the amounts of the expenses that name no category.
   */
  lemma {:induction false} TotalSplitsByCategory(cats: seq<Category>, fs: seq<Expense>)
    requires DistinctIds(cats)
    ensures Total(fs) == SliceSum(CategorySlices(cats, fs)) + Total(Collection.Filter(fs, Orphan(cats)))
    decreases |fs|
  {
    if |fs| == 0 {
      assert SliceSum(CategorySlices(cats, fs)) == 0 by {
        SlicesOfNothing(cats, fs);
      }
    } else {
      var e := fs[0];
      var rest := fs[1..];
      var orphan := Orphan(cats);
      var strays := Collection.Filter(rest, orphan);
      assert fs == [e] + rest;
      TotalSplitsByCategory(cats, rest);
      TotalFront(e, rest);
      SliceSumFront(cats, e, rest);
      ShareOfOne(cats, e);
      Collection.FilterFront(e, rest, orphan);
      assert orphan(e) <==> !Collection.HasId(cats, CategoryId, e.categoryId);
      if orphan(e) {
        TotalFront(e, strays);
        assert Total(Collection.Filter(fs, orphan)) == e.amount + Total(strays);
      } else {
        assert Collection.Filter(fs, orphan) == strays;
      }
    }
  }

  lemma {:induction false} SlicesOfNothing(cats: seq<Category>, fs: seq<Expense>)
    requires |fs| == 0
    ensures SliceSum(CategorySlices(cats, fs)) == 0
    decreases |cats|
  {
    if |cats| > 0 {
      SlicesOfNothing(cats[1..], fs);
    }
  }

  /**
   * An expense whose category id matches no category raises the total by
   * its amount and leaves every slice as it was.
   */
  lemma OrphanOnlyInTotal(cats: seq<Category>, fs: seq<Expense>, e: Expense)
    requires !Collection.HasId(cats, CategoryId, e.categoryId)
    ensures Total(fs + [e]) == Total(fs) + e.amount
    ensures CategorySlices(cats, fs + [e]) == CategorySlices(cats, fs)
  {
    TotalAppend(fs, [e]);
    assert [e][..0] == [];
    forall i | 0 <= i < |cats| ensures CategoryTotal(fs + [e], cats[i].id) == CategoryTotal(fs, cats[i].id) {
      Collection.FilterDistributes(fs, [e], InCategory(cats[i].id));
      assert CategoryId(cats[i]) != e.categoryId;
      assert Collection.Filter([e], InCategory(cats[i].id)) == [];
      assert Collection.Filter(fs + [e], InCategory(cats[i].id)) == Collection.Filter(fs, InCategory(cats[i].id));
    }
  }

  // A worked example: categories A, B and C, one expense in each.

  const ExampleCategories: seq<Category> :=
    [Category("A", "a", "#1", "i"), Category("B", "b", "#2", "i"), Category("C", "c", "#3", "i")]

  /** Expenses of `x`, `y` and 0 in categories A, B and C. */
  function ExampleExpenses(x: Amount, y: Amount): seq<Expense>
  {
    [Expense("x", x, "A", "", 0), Expense("y", y, "B", "", 0), Expense("z", 0, "C", "", 0)]
  }

  function ExampleBreakdown(x: Amount, y: Amount): seq<Slice>
  {
    [Slice("A", "a", x, "#1"), Slice("B", "b", y, "#2")]
  }

  lemma ExampleCategoryTotals(x: Amount, y: Amount, id: string)
    ensures CategoryTotal(ExampleExpenses(x, y), id)
         == (if id == "A" then x else 0) + (if id == "B" then y else 0)
  {
    var es := ExampleExpenses(x, y);
    var e1, e2, e3 := es[0], es[1], es[2];
    var k := InCategory(id);
    Collection.FilterFront(e3, [], k);
    Collection.FilterFront(e2, [e3], k);
    assert es == [e1] + [e2, e3];
    Collection.FilterFront(e1, [e2, e3], k);
    var f3 := if id == "C" then [e3] else [];
    var f2 := if id == "B" then [e2] else [];
    var f1 := if id == "A" then [e1] else [];
    assert Collection.Filter([e3], k) == f3;
    assert Collection.Filter([e2, e3], k) == f2 + f3;
    assert Collection.Filter(es, k) == f1 + (f2 + f3);
    TotalAppend(f1, f2 + f3);
    TotalAppend(f2, f3);
  }

  lemma SlicesOfThree(cats: seq<Category>, fs: seq<Expense>)
    requires |cats| == 3
    ensures CategorySlices(cats, fs)
         == [Slice(cats[0].id, cats[0].name, CategoryTotal(fs, cats[0].id), cats[0].color),
             Slice(cats[1].id, cats[1].name, CategoryTotal(fs, cats[1].id), cats[1].color),
             Slice(cats[2].id, cats[2].name, CategoryTotal(fs, cats[2].id), cats[2].color)]
  {
  }

  lemma ExampleSlices(x: Amount, y: Amount)
    ensures CategorySlices(ExampleCategories, ExampleExpenses(x, y))
         == ExampleBreakdown(x, y) + [Slice("C", "c", 0, "#3")]
  {
    var cats, fs := ExampleCategories, ExampleExpenses(x, y);
    ExampleTotalsByCategory(x, y);
    assert cats[0].id == "A" && cats[1].id == "B" && cats[2].id == "C";
    SlicesOfThree(cats, fs);
  }

  lemma ExampleTotalsByCategory(x: Amount, y: Amount)
    ensures CategoryTotal(ExampleExpenses(x, y), "A") == x
    ensures CategoryTotal(ExampleExpenses(x, y), "B") == y
    ensures CategoryTotal(ExampleExpenses(x, y), "C") == 0
  {
    ExampleCategoryTotals(x, y, "A");
    ExampleCategoryTotals(x, y, "B");
    ExampleCategoryTotals(x, y, "C");
  }

  lemma ExampleKept(x: Amount, y: Amount)
    requires x > 0 && y > 0
    ensures Collection.Filter(ExampleBreakdown(x, y) + [Slice("C", "c", 0, "#3")], IsPositive) == ExampleBreakdown(x, y)
  {
    var A, B, C := Slice("A", "a", x, "#1"), Slice("B", "b", y, "#2"), Slice("C", "c", 0, "#3");
    Collection.FilterFront(C, [], IsPositive);
    Collection.FilterFront(B, [C], IsPositive);
    assert ExampleBreakdown(x, y) + [C] == [A] + [B, C];
    Collection.FilterFront(A, [B, C], IsPositive);
  }

  lemma ExampleSorted(x: Amount, y: Amount)
    requires x >= y
    ensures Sorting.SortDesc(ExampleBreakdown(x, y), SliceValue) == ExampleBreakdown(x, y)
  {
    var A, B := Slice("A", "a", x, "#1"), Slice("B", "b", y, "#2");
    assert ExampleBreakdown(x, y)[1..] == [B];
    assert [B][1..] == [];
    assert Sorting.SortDesc([B], SliceValue) == [B];
  }

  lemma ExampleTotal(x: Amount, y: Amount)
    ensures Total(ExampleExpenses(x, y)) == x + y
  {
    var es := ExampleExpenses(x, y);
    assert es[..2][..1] == es[..1];
    assert es[..1][..0] == [];
    assert Total(es[..1]) == x;
    assert Total(es[..2]) == x + y;
  }

  /**
   * Positive amounts `x >= y` in categories A and B and a zero amount in C,
   * over all time: the total is `x + y`, and the chart shows A then B and
   * drops C.
   */
  lemma ThreeCategoryExample(x: Amount, y: Amount, cal: Dates.Calendar, now: Timestamp)
    requires x >= y > 0
    ensures Summarize(ExampleExpenses(x, y), ExampleCategories, All, cal, now)
         == Overview(x + y, ExampleBreakdown(x, y))
  {
    ExampleSlices(x, y);
    ExampleKept(x, y);
    ExampleSorted(x, y);
    ExampleTotal(x, y);
    var fs := PeriodExpenses(ExampleExpenses(x, y), All, cal, now);
    assert fs == ExampleExpenses(x, y);
    assert Breakdown(ExampleCategories, fs) == ExampleBreakdown(x, y);
  }
}
